=== FILE: README.md ===
# Budgeting ledger — a Dafny model

This project models the ledger of a single-page personal budgeting app
(`app.js`). The app keeps one record, `{transactions, incomes, categoryGoals,
lastMonth, history}`, and changes it through a few commands:

- add a category goal (additive when the name already exists);
- record an income;
- record an expense against a category;
- transfer budget between two categories;
- close the month.

It also derives per-category spending, total expenses and the balance.
When the app starts it rolls the month over, and the CSV export turns the
record into rows. The entry commands (module `Entry`) are pure functions
from a `Ledger` to `Result<Ledger>`. Each returns either the updated ledger
or the reason it refused, and on a refusal the ledger is unchanged. The
reason names the alert the app shows. The expense prompt is the exception:
it returns silently, and the model records that as `InvalidExpense`. The
close, the startup rollover and loading always succeed, so they are pure
functions to a plain `Ledger`.

Modules:

- `Text` (`text.dfy`): ECMAScript `trim`, `join` and `split` on one separator, and separator counting.
- `Budget` (`budget.dfy`): the state record, `parseFloat` results (`NaN | Finite`), the filter/reduce sums, `Spent`, `TotalExpenses`, `Balance`, `Available`, and the invariant `Valid`.
- `Entry` (`entry.dfy`): `addCategory`, `addIncome`, `promptAddTransaction` (`AddExpense`) and the transfer handler.
- `MonthClose` (`month_close.dfy`): the close-month confirm handler, as a left fold of `Resolve` followed by `Archive`, plus the startup rollover and loading.
- `CsvExport` (`csv_export.dfy`): the export's row list and the comma/newline join.

Money is `real`, so sums and the redistribute division are exact.

Some behaviours of the code are easy to misread; the model follows the code:

- **Transfer target.** The income-typed leg of a transfer is never counted, so the target's available amount does not rise. A transfer there and back lowers both categories (`Entry.TransferBackLowersBoth`); it does not restore them.
- **Negative income.** Income is accepted with a negative amount. Only zero, NaN and an empty note are refused.
- **Expense category.** Expense entry does not check that the category exists.
- **No snapshot at close.** The close recomputes each leftover from the goals as they stand at that step (`MonthClose.CloseDoesNotSnapshot`).
- **Close options.** Only `carry`, `redistribute` and `none` exist. There is no pool, no move-to-category and no deletion.
- **Incomes stay.** Incomes are never archived or cleared, so after a close the balance is the sum of all income ever recorded (`MonthClose.CloseResetsBalanceToIncome`).
- **Silent rollover.** The startup rollover archives without asking.
- **No CSV quoting.** CSV cells are not quoted.

## Model

| member | source | states |
|---|---|---|
| Text.Trim | app.js:38 | the trimmed name or note is the infix of the input left once the whitespace at both ends is removed, and it neither starts nor ends with whitespace |
| Text.TrimEmptyIffAllSpace | app.js:40 | a name or note counts as empty exactly when it held only whitespace |
| Text.SplitJoin | app.js:274 | splitting a joined non-empty list on the separator gives back the list when no field contains the separator (an empty list joins to `""`, which splits into one empty field) |
| Text.JoinCount | app.js:274 | a joined line holds one separator between each pair of fields plus the ones inside the fields |
| Budget.SumAmounts | app.js:75-76 | the reduce over amounts is non-negative when every amount is |
| Budget.Expenses | app.js:114-117 | the expense filter keeps exactly the expense-typed transactions, and no more of them than the list holds |
| Budget.ExpensesCounts | app.js:115 | the expense filter keeps each expense-typed transaction as often as it occurs, and no other transaction |
| Budget.CategoryExpenses | app.js:139-141 | the per-category filter keeps exactly the expense-typed transactions of that category |
| Budget.CategoryExpensesCounts | app.js:139-140 | the per-category filter keeps each expense of the category as often as it occurs, and no other transaction |
| Budget.Spent | app.js:139-141 | a category's spending is non-negative when the amounts are positive, and zero when no expense is recorded against it |
| Budget.TotalExpenses | app.js:114-117 | total expenses are non-negative when the amounts are positive, and zero when every transaction is income-typed |
| Budget.TotalIncome | app.js:120 | the income total is non-negative when no income is negative |
| Budget.Balance | app.js:119-122 | with positive amounts the balance never exceeds total income, and equals it when no transaction is an expense |
| Budget.Leftover | app.js:240-242 | with positive amounts a leftover never exceeds the goal, and is the whole goal when nothing is spent against the category |
| Budget.Available | app.js:75-78 | the source check's goal minus spending is the category's leftover: with positive amounts never more than its goal, all of it when nothing is spent against it |
| Budget.SpentAppendOne | app.js:139-141 | one more transaction raises a category's spending by its amount only when it is an expense of that category |
| Budget.TotalExpensesAppendOne | app.js:114-117 | one more transaction raises total expenses by its amount only when it is expense-typed |
| Budget.SpentAtMostTotalExpenses | app.js:114-117 | with positive amounts, one category's spending lies between 0 and the total expenses |
| Entry.AddCategory | app.js:37-43 | refused exactly for an empty trimmed name or a NaN, zero or negative goal; otherwise the goal becomes the old goal (or 0) plus the new one, and nothing else changes |
| Entry.AddCategoryAccumulates | app.js:43 | adding a goal of a and then one of b under one name gives the same ledger as adding a+b once |
| Entry.AddCategoryKeepsValid | app.js:40-43 | category names stay non-empty and goals stay positive |
| Entry.AddIncome | app.js:88-93 | refused exactly for a zero or NaN amount or a blank note (negatives pass); otherwise exactly one record with the amount, the trimmed note and the date (or today) is appended, and nothing else changes |
| Entry.AddIncomeShiftsBalance | app.js:119-122 | an accepted income moves the balance by exactly its amount |
| Entry.AddIncomeKeepsValid | app.js:92-93 | recording an income keeps the ledger invariant |
| Entry.AddExpense | app.js:189-194 | refused exactly for a cancelled or empty note or a NaN or non-positive amount; otherwise exactly one expense for that category is appended, with no budget check |
| Entry.AddExpenseEffect | app.js:192-194 | an accepted expense raises its category's spending by its amount, leaves every other category's spending alone and lowers the balance by the amount |
| Entry.AddExpenseKeepsValid | app.js:192-194 | recorded transactions keep positive amounts |
| Entry.Transfer | app.js:69-82 | refused exactly for an empty or identical pair, a NaN or non-positive amount, or an amount above the source's goal minus its spending (the last as insufficient funds, every other refusal as an invalid transfer); otherwise appends the expense leg on the source and then the income-typed leg on the target, and goals and incomes are unchanged |
| Entry.TransferLegs | app.js:81-82 | two legs of the same amount and date: first an expense on the source, then an income-typed entry on the target; the first spends the amount from the source only, the second counts as spending nowhere |
| Entry.TransferEffect | app.js:75-82 | after a transfer the source's available amount drops by exactly the amount and stays non-negative, every other category's (the target's included) is unchanged, and the balance drops by the amount |
| Entry.TransferBackLowersBoth | app.js:81-82 | a transfer from A to B and back leaves both A and B with the amount less available |
| Entry.TransferKeepsValid | app.js:73-82 | a transfer keeps the ledger invariant |
| MonthClose.Resolve | app.js:239-252 | a leftover that is not positive is skipped; carry adds it to that goal only; redistribute adds leftover/(n-1) to every other goal and keeps the source goal; a lone category is unchanged; none changes nothing; no goal decreases |
| MonthClose.Spread | app.js:249-251 | every goal but the source's rises by the share; the source goal and the set of categories are unchanged |
| MonthClose.CloseGoals | app.js:235-253 | the dialog's resolutions applied in order keep the set of categories |
| MonthClose.CloseGoalsFirst | app.js:236-253 | the first resolution is applied to the goals as they were, and the rest to its outcome |
| MonthClose.CloseGoalsNeverLower | app.js:245-251 | no goal decreases during a close |
| MonthClose.CloseAllIgnore | app.js:245-252 | choosing none everywhere leaves every goal as it was |
| MonthClose.CarryConserves | app.js:245-246 | carrying raises the goals' total by exactly the leftover |
| MonthClose.RedistributeConserves | app.js:248-251 | redistributing over at least one other category raises the goals' total by exactly the leftover |
| MonthClose.ResolveConserves | app.js:242-252 | every resolution raises the goals' total by exactly the leftover it acts on, or by nothing |
| MonthClose.Archive | app.js:255-258 | the current transactions are stored under the tracked month, other archives are kept, transactions are emptied, the new month is tracked, and goals and incomes are untouched |
| MonthClose.CloseMonth | app.js:234-258 | after a close the goals are the in-order fold of `Resolve` over the dialog's selects, with the same categories and no goal lower, the month's transactions are archived under its key, the transaction list is empty, the new month is tracked and incomes are unchanged |
| MonthClose.CloseMonthKeepsValid | app.js:242-258 | a close keeps the ledger invariant |
| MonthClose.CloseResetsBalanceToIncome | app.js:255-258 | after a close the balance is the total of all incomes |
| MonthClose.GroceriesCarry | app.js:234-258 | a goal of 300 with expenses of 50 and 40, when carried, becomes 510, and both expenses are archived |
| MonthClose.LoneRedistribute | app.js:248-251 | redistributing the only category's leftover changes nothing |
| MonthClose.CloseDoesNotSnapshot | app.js:239-242 | with two categories and nothing spent, redistributing A and then carrying B leaves A as it was and gives B 2 * (A + B), because B's leftover is read after the redistribution |
| MonthClose.Startup | app.js:13-18 | startup archives and tracks the calendar month only when the stored month differs, and leaves goals and incomes untouched |
| MonthClose.StartupKeepsValid | app.js:14-17 | the startup rollover keeps the ledger invariant |
| MonthClose.StartupIdempotent | app.js:14-17 | a second startup in the same month changes nothing |
| MonthClose.Load | app.js:2-19 | a missing stored record gives an empty ledger tracking the calendar month; a stored one goes through the startup rollover, which keeps its goals and incomes |
| MonthClose.LoadIdempotent | app.js:2-19 | loading the record a load produced, in the same month, gives it back unchanged |
| MonthClose.LoadKeepsValid | app.js:2-19 | a load keeps the ledger invariant, and a missing record gives a ledger that meets it |
| MonthClose.CloseThenRolloverDropsArchive | app.js:255-258 | a close in the tracked month followed by a startup in a later month leaves nothing archived under the closed month |
| MonthClose.CloseThenRolloverDropsArchiveExample | app.js:14-17 | an expense archived by a close in May is gone from the history after the app opens in June |
| MonthClose.ArchiveKeeping | app.js:255-256 | corrected archive: every earlier archive is a prefix of the new one, and the current transactions are appended under the tracked month |
| MonthClose.CloseMonthKeeping | app.js:234-258 | corrected close: the goals are the same fold of `Resolve` as in the code and none decreases, every earlier archive is a prefix of the new one, the tracked month's archive gains the current transactions, the transaction list is emptied and incomes are unchanged |
| MonthClose.StartupKeeping | app.js:13-18 | corrected startup: goals and incomes are untouched, earlier archives are only extended, a same-month start changes nothing, and a new month empties the transactions after appending them to the old month's archive |
| MonthClose.CloseKeepingThenRolloverKeepsArchive | app.js:255-258 | corrected archive: after a close and a later startup, every earlier archive and the closed month's transactions are still stored |
| CsvExport.KindName | app.js:268 | the type column reads `expense` exactly for expenses and `income` exactly for income-typed transactions |
| CsvExport.TransactionRow | app.js:268 | one cell per header column; the Type cell reads `expense` exactly for expenses and `income` exactly for income-typed transactions; Category and Amount hold the category and the amount |
| CsvExport.TransactionFields | app.js:268 | a transaction row renders as its type name, category, amount, note and date |
| CsvExport.IncomeRow | app.js:271 | one cell per header column; the Type cell is the same as an income-typed transaction's, so a recorded income and a transfer's receiving leg cannot be told apart by type; the note sits under Category and the Note cell is empty |
| CsvExport.BuildRows | app.js:266-272 | 1 + transactions + incomes rows: the header, then one `[type, category, amount, note, date]` row per transaction in order, then one `['income', note, amount, '', date]` row per income in order |
| CsvExport.Line | app.js:274 | when a non-empty row has no cell that renders with a comma, its line splits back into the rendered cells; when no cell renders with a newline, neither does the line |
| CsvExport.CsvContent | app.js:273-274 | the text starts with the data-URI prefix and, after it, holds one newline between consecutive rows plus any inside the cells |
| CsvExport.CsvRoundTrip | app.js:273-274 | for a non-empty list of non-empty rows, after the data-URI prefix, when no cell renders with a comma or newline, the text splits back into one line per row and each line into its rendered cells |
| CsvExport.UnquotedFieldCount | app.js:274 | a line splits into one field per cell plus one per comma inside the cells |
| CsvExport.CommaInNoteAddsField | app.js:268 | a transaction whose note holds one comma, and whose category, date and rendered amount hold none, exports as six fields |

## Left out

- DOM work is not modelled: rendering, progress bars, tiles, prompts, alerts and showing or hiding the modal. Inputs arrive already read: a `Number` for each `parseFloat` and an `Option<string>` for each `prompt`.
- MonthClose.CloseMonth: the requires that every select names an existing category assumes the dialog's `data-cat` attribute reproduces the category name. The dialog builds it through `innerHTML` without escaping (app.js:216-218), so a name holding `"` or an HTML character reference reaches the handler as a different string. For a missing key the leftover is NaN, which passes the `leftover <= 0` test, so `carry` writes a NaN goal under a new key and `redistribute` makes every other goal NaN (app.js:242-251). Such names are not modelled; the same holds for `MonthClose.CloseGoals`.
- The close dialog's list of categories with a positive leftover (app.js:201-228) is not modelled, because it is display. `MonthClose.CloseMonth` accepts any ordered list of existing categories. The confirm handler re-checks each leftover in any case.
- `localStorage`, `JSON.parse`/`stringify` and `saveData` are not modelled. `MonthClose.Load` takes the stored record as an `Option<Ledger>`.
- The wall clock is not modelled. Month keys and dates are parameters (`today`, `newMonth`, `currentMonth`).
- Chart.js, `toFixed` and the progress percentage are not modelled, because they are presentation.
- `encodeURI` and the download link are not modelled. Number-to-string conversion in CSV cells is the parameter `show`.
- service-worker.js is not part of this model: it holds cache plumbing and no ledger logic.
- Money uses exact reals, so double-precision rounding is not modelled. `parseFloat` results of `Infinity` are not modelled either.
- Category names that collide with `Object.prototype` members (`toString` and the like) are not modelled: for those, the handler's truthiness test reads an inherited property.
- Entry.Transfer: requires both categories to exist, since they come from dropdowns of existing categories. The handler itself does not check this. With no categories at all the dropdowns are empty, both values are `""`, and the handler shows "Invalid transfer" (app.js:73). That case falls outside the requires and is not covered.
- Pool, move-to-category, discard, category or transaction deletion, and backup/restore are not modelled: app.js has no code for them.

## Findings

| source | as written | input that shows it | evidently intended | confidence | as-written member | corrected member |
|---|---|---|---|---|---|---|
| app.js:255-258 | The close stores the transactions under `lastMonth` and then sets `lastMonth` to the calendar month. After the startup check (app.js:14-17) that is the same key. The next startup in a later month archives again under that key and replaces what the close stored. | lastMonth `2024-05`, a Food goal of 25 fully spent by one expense of 25 (so the dialog lists no category), closed in `2024-05`, app reopened in `2024-06`: `history["2024-05"]` becomes `[]` | a closed month's transactions stay in the history | medium, not executed | MonthClose.CloseThenRolloverDropsArchive | MonthClose.CloseKeepingThenRolloverKeepsArchive |

`MonthClose.CloseMonth` and `MonthClose.Startup` follow the code as written. The corrected definitions are `MonthClose.ArchiveKeeping`, `MonthClose.CloseMonthKeeping` and `MonthClose.StartupKeeping`. They append to what is already stored under the key instead of replacing it.

=== FILE: budget.dfy ===
/** The budgeting ledger's state record and the totals derived from it.
    The state is the record the application keeps in local storage:
    current-month transactions, the income list, the per-category goals,
    the key of the month being tracked and the archive of earlier months. */
module Budget {

  datatype Option<T> = None | Some(value: T)

  /** What `parseFloat` of a form field yields: not-a-number, or a value.
      Money is kept exact. */
  datatype Number = NaN | Finite(value: real)

  /** Why an operation was refused; each corresponds to one of the
      application's alerts (or, for expenses, its silent return). */
  datatype Reason =
    | InvalidCategory    // "Enter category name and valid goal"
    | InvalidIncome      // "Enter amount and description"
    | InvalidExpense     // the add-transaction prompt was cancelled or bad
    | InvalidTransfer    // "Invalid transfer"
    | InsufficientFunds  // "Not enough available in source category"

  datatype Result<T> = Ok(value: T) | Err(reason: Reason)

  /** The `type` field of a transaction: `'expense'` or `'income'`. */
  datatype Kind = Expense | Income

  datatype Transaction = Transaction(amount: real, note: string, kind: Kind, category: string, date: string)

  datatype IncomeEntry = IncomeEntry(amount: real, note: string, date: string)

  datatype Ledger = Ledger(
    transactions: seq<Transaction>,
    incomes: seq<IncomeEntry>,
    goals: map<string, real>,
    lastMonth: string,
    history: map<string, seq<Transaction>>)

  /** The record used when nothing is stored yet. */
  function Initial(month: string): (d: Ledger)
    ensures d.transactions == [] && d.incomes == [] && d.goals == map[] && d.history == map[]
    ensures d.lastMonth == month
  {
    Ledger([], [], map[], month, map[])
  }

  predicate Positive(ts: seq<Transaction>)
  {
    forall i :: 0 <= i < |ts| ==> ts[i].amount > 0.0
  }

  /** No transaction of the list is an expense of `cat`. */
  predicate NoExpenseIn(ts: seq<Transaction>, cat: string)
  {
    forall i :: 0 <= i < |ts| ==> ts[i].kind != Expense || ts[i].category != cat
  }

  /** Every transaction of the list is income-typed. */
  predicate AllIncomeTyped(ts: seq<Transaction>)
  {
    forall i :: 0 <= i < |ts| ==> ts[i].kind == Income
  }

  /** What every operation keeps true: category names are non-empty, goals
      are positive, and every recorded or archived transaction has a positive
      amount (direction is carried by its kind). Income amounts are not
      constrained: the income form accepts negative amounts. */
  predicate Valid(d: Ledger)
  {
    && (forall c :: c in d.goals ==> c != [] && d.goals[c] > 0.0)
    && Positive(d.transactions)
    && (forall m :: m in d.history ==> Positive(d.history[m]))
  }

  /** The amounts of a transaction list added up from the first to the
      last, starting from zero. */
  function SumAmounts(ts: seq<Transaction>): (r: real)
    ensures (forall i :: 0 <= i < |ts| ==> ts[i].amount >= 0.0) ==> r >= 0.0
  {
    if |ts| == 0 then 0.0 else SumAmounts(ts[..|ts| - 1]) + ts[|ts| - 1].amount
  }

  /** The expense-typed transactions of a list, in their order, each as
      often as it occurs; income-typed ones are dropped. */
  function Expenses(ts: seq<Transaction>): (r: seq<Transaction>)
    ensures |r| <= |ts|
    ensures forall t :: t in r ==> t in ts && t.kind == Expense
    ensures forall t :: t in ts && t.kind == Expense ==> t in r
  {
    if |ts| == 0 then []
    else
      var init := ts[..|ts| - 1];
      var last := ts[|ts| - 1];
      assert ts == init + [last];
      Expenses(init) + (if last.kind == Expense then [last] else [])
  }

  /** The expense-typed transactions recorded against `cat`, in their
      order, each as often as it occurs. */
  function CategoryExpenses(ts: seq<Transaction>, cat: string): (r: seq<Transaction>)
    ensures |r| <= |ts|
    ensures forall t :: t in r ==> t in ts && t.kind == Expense && t.category == cat
    ensures forall t :: t in ts && t.kind == Expense && t.category == cat ==> t in r
  {
    if |ts| == 0 then []
    else
      var init := ts[..|ts| - 1];
      var last := ts[|ts| - 1];
      assert ts == init + [last];
      CategoryExpenses(init, cat)
        + (if last.kind == Expense && last.category == cat then [last] else [])
  }

  /** What a category has spent: the expense-typed transactions recorded
      against it. Income-typed transactions never count, even when they
      carry the category (the receiving leg of a transfer). */
  function Spent(ts: seq<Transaction>, cat: string): (r: real)
    ensures Positive(ts) ==> r >= 0.0
    ensures NoExpenseIn(ts, cat) ==> r == 0.0
  {
    var es := CategoryExpenses(ts, cat);
    assert forall k :: 0 <= k < |es| ==> es[k] in ts;
    SumAmounts(es)
  }

  /** `calcTotalExpenses`: every expense-typed transaction, whatever its
      category. */
  function TotalExpenses(ts: seq<Transaction>): (r: real)
    ensures Positive(ts) ==> r >= 0.0
    ensures AllIncomeTyped(ts) ==> r == 0.0
  {
    var es := Expenses(ts);
    assert forall k :: 0 <= k < |es| ==> es[k] in ts;
    SumAmounts(es)
  }

  /** The income reduce: every recorded income, negative ones included. */
  function TotalIncome(incs: seq<IncomeEntry>): (r: real)
    ensures (forall i :: 0 <= i < |incs| ==> incs[i].amount >= 0.0) ==> r >= 0.0
  {
    if |incs| == 0 then 0.0 else TotalIncome(incs[..|incs| - 1]) + incs[|incs| - 1].amount
  }

  /** The balance shown on screen: all income minus all expenses. */
  function Balance(d: Ledger): (r: real)
    ensures Positive(d.transactions) ==> r <= TotalIncome(d.incomes)
    ensures AllIncomeTyped(d.transactions) ==> r == TotalIncome(d.incomes)
  {
    TotalIncome(d.incomes) - TotalExpenses(d.transactions)
  }

  /** A category's unspent goal: its goal minus its spending. */
  function Leftover(goals: map<string, real>, ts: seq<Transaction>, cat: string): (r: real)
    requires cat in goals
    ensures Positive(ts) ==> r <= goals[cat]
    ensures NoExpenseIn(ts, cat) ==> r == goals[cat]
  {
    goals[cat] - Spent(ts, cat)
  }

  /** What a category of the ledger can still give away. */
  function Available(d: Ledger, cat: string): (r: real)
    requires cat in d.goals
    ensures Positive(d.transactions) ==> r <= d.goals[cat]
    ensures NoExpenseIn(d.transactions, cat) ==> r == d.goals[cat]
  {
    Leftover(d.goals, d.transactions, cat)
  }

  /** The amount one transaction adds to a category's spending. */
  function SpentBy(t: Transaction, cat: string): real
  {
    if t.kind == Expense && t.category == cat then t.amount else 0.0
  }

  /** The expense filter keeps each expense-typed transaction as often as
      it occurs in the list, and no other transaction. */
  lemma {:induction false} ExpensesCounts(ts: seq<Transaction>)
    ensures forall t :: multiset(Expenses(ts))[t] == (if t.kind == Expense then multiset(ts)[t] else 0)
  {
    if |ts| > 0 {
      var init := ts[..|ts| - 1];
      var last := ts[|ts| - 1];
      assert ts == init + [last];
      ExpensesCounts(init);
    }
  }

  /** The per-category filter keeps each expense of `cat` as often as it
      occurs in the list, and no other transaction. */
  lemma {:induction false} CategoryExpensesCounts(ts: seq<Transaction>, cat: string)
    ensures forall t ::
              multiset(CategoryExpenses(ts, cat))[t]
              == (if t.kind == Expense && t.category == cat then multiset(ts)[t] else 0)
  {
    if |ts| > 0 {
      var init := ts[..|ts| - 1];
      var last := ts[|ts| - 1];
      assert ts == init + [last];
      CategoryExpensesCounts(init, cat);
    }
  }

  lemma SumAmountsAppendOne(ts: seq<Transaction>, t: Transaction)
    ensures SumAmounts(ts + [t]) == SumAmounts(ts) + t.amount
  {
    assert (ts + [t])[..|ts|] == ts;
  }

  /** Spending after one more transaction is the old spending plus what that
      transaction contributes to the category, and nothing else. */
  lemma SpentAppendOne(ts: seq<Transaction>, t: Transaction, cat: string)
    ensures Spent(ts + [t], cat) == Spent(ts, cat) + SpentBy(t, cat)
  {
    assert (ts + [t])[..|ts|] == ts;
    if t.kind == Expense && t.category == cat {
      SumAmountsAppendOne(CategoryExpenses(ts, cat), t);
    } else {
      assert CategoryExpenses(ts + [t], cat) == CategoryExpenses(ts, cat);
    }
  }

  /** Total expenses after one more transaction grow by its amount exactly
      when it is expense-typed. */
  lemma TotalExpensesAppendOne(ts: seq<Transaction>, t: Transaction)
    ensures TotalExpenses(ts + [t]) == TotalExpenses(ts) + (if t.kind == Expense then t.amount else 0.0)
  {
    assert (ts + [t])[..|ts|] == ts;
    if t.kind == Expense {
      SumAmountsAppendOne(Expenses(ts), t);
    } else {
      assert Expenses(ts + [t]) == Expenses(ts);
    }
  }

  lemma TotalIncomeAppendOne(incs: seq<IncomeEntry>, e: IncomeEntry)
    ensures TotalIncome(incs + [e]) == TotalIncome(incs) + e.amount
  {
    assert (incs + [e])[..|incs|] == incs;
  }

  /** With positive amounts, one category never spends more than all
      categories together. */
  lemma {:induction false} SpentAtMostTotalExpenses(ts: seq<Transaction>, cat: string)
    requires Positive(ts)
    ensures 0.0 <= Spent(ts, cat) <= TotalExpenses(ts)
  {
    if |ts| > 0 {
      var init := ts[..|ts| - 1];
      var t := ts[|ts| - 1];
      assert init + [t] == ts;
      assert Positive(init);
      SpentAtMostTotalExpenses(init, cat);
      SpentAppendOne(init, t, cat);
      TotalExpensesAppendOne(init, t);
    }
  }
}

=== FILE: csv_export.dfy ===
/** The rows of the CSV export and the text they are joined into. Cells are
    joined with `,` and rows with a newline, without any quoting or escaping,
    so a text cell containing a comma or a newline changes the shape of the
    file. The download itself (URI encoding, the link) is not modelled. */
module CsvExport {
  import opened Text
  import opened Budget

  /** A cell is either text or a number; numbers are rendered by the
      runtime's number-to-string conversion, passed in as `show`. */
  datatype Cell = Str(text: string) | Num(number: real)

  type Row = seq<Cell>

  const Header: Row := [Str("Type"), Str("Category"), Str("Amount"), Str("Note"), Str("Date")]

  const DataUriPrefix: string := "data:text/csv;charset=utf-8,"

  /** The value of a transaction's `type` field. */
  function KindName(k: Kind): (r: string)
    ensures r == "expense" <==> k == Expense
    ensures r == "income" <==> k == Income
  {
    match k
    case Expense => "expense"
    case Income => "income"
  }

  /** A transaction's export row: its type, category, amount, note and
      date, in that order. */
  function TransactionRow(t: Transaction): (r: Row)
    ensures |r| == |Header|
    ensures r[0] == Str("expense") <==> t.kind == Expense
    ensures r[0] == Str("income") <==> t.kind == Income
    ensures r[1] == Str(t.category) && r[2] == Num(t.amount)
  {
    [Str(KindName(t.kind)), Str(t.category), Num(t.amount), Str(t.note), Str(t.date)]
  }

  /** An income's export row: the type column reads `income`, the note goes
      in the Category column, then the amount, an empty Note column and the
      date. */
  function IncomeRow(e: IncomeEntry): (r: Row)
    ensures |r| == |Header|
    ensures forall t: Transaction :: t.kind == Income ==> r[0] == TransactionRow(t)[0]
    ensures r[1] == Str(e.note) && r[2] == Num(e.amount) && r[3] == Str("")
  {
    [Str("income"), Str(e.note), Num(e.amount), Str(""), Str(e.date)]
  }

  /** The export's row list: the header, every transaction in order, then
      every income in order. */
  method BuildRows(d: Ledger) returns (rows: seq<Row>)
    ensures |rows| == 1 + |d.transactions| + |d.incomes|
    ensures rows[0] == Header
    ensures forall i :: 0 <= i < |d.transactions| ==> rows[1 + i] == TransactionRow(d.transactions[i])
    ensures forall j :: 0 <= j < |d.incomes| ==> rows[1 + |d.transactions| + j] == IncomeRow(d.incomes[j])
  {
    rows := [Header];
    var i := 0;
    while i < |d.transactions|
      invariant 0 <= i <= |d.transactions|
      invariant |rows| == 1 + i && rows[0] == Header
      invariant forall k :: 0 <= k < i ==> rows[1 + k] == TransactionRow(d.transactions[k])
    {
      rows := rows + [TransactionRow(d.transactions[i])];
      i := i + 1;
    }
    var j := 0;
    while j < |d.incomes|
      invariant 0 <= j <= |d.incomes|
      invariant |rows| == 1 + |d.transactions| + j && rows[0] == Header
      invariant forall k :: 0 <= k < |d.transactions| ==> rows[1 + k] == TransactionRow(d.transactions[k])
      invariant forall k :: 0 <= k < j ==> rows[1 + |d.transactions| + k] == IncomeRow(d.incomes[k])
    {
      rows := rows + [IncomeRow(d.incomes[j])];
      j := j + 1;
    }
  }

  function Render(c: Cell, show: real -> string): string
  {
    match c
    case Str(text) => text
    case Num(number) => show(number)
  }

  /** The rendered cells of a row. */
  function Fields(row: Row, show: real -> string): (r: seq<string>)
    ensures |r| == |row|
  {
    seq(|row|, i requires 0 <= i < |row| => Render(row[i], show))
  }

  /** No cell of the row renders with `c`. */
  predicate CellsFree(row: Row, show: real -> string, c: char)
  {
    forall i :: 0 <= i < |row| ==> Free(Render(row[i], show), c)
  }

  /** One CSV line: the rendered cells separated by commas. */
  function Line(row: Row, show: real -> string): (r: string)
    ensures |row| >= 1 && CellsFree(row, show, ',')
      ==> Split(r, ',') == Fields(row, show)
    ensures CellsFree(row, show, '\n') ==> Free(r, '\n')
  {
    var fs := Fields(row, show);
    var r := Join(fs, ',');
    assert |row| >= 1 && CellsFree(row, show, ',')
      ==> Split(r, ',') == fs by {
      if |row| >= 1 && CellsFree(row, show, ',') {
        SplitJoin(fs, ',');
      }
    }
    assert CellsFree(row, show, '\n') ==> Free(r, '\n') by {
      if CellsFree(row, show, '\n') {
        JoinFree(fs, ',', '\n');
      }
    }
    r
  }

  function Lines(rows: seq<Row>, show: real -> string): (r: seq<string>)
    ensures |r| == |rows|
  {
    seq(|rows|, i requires 0 <= i < |rows| => Line(rows[i], show))
  }

  /** The file's text: the lines joined with newlines after the data-URI
      prefix. */
  function CsvContent(rows: seq<Row>, show: real -> string): (r: string)
    ensures |DataUriPrefix| <= |r| && r[..|DataUriPrefix|] == DataUriPrefix
    ensures |rows| >= 1 ==>
      Count(r[|DataUriPrefix|..], '\n') == |rows| - 1 + CountAll(Lines(rows, show), '\n')
  {
    var body := Join(Lines(rows, show), '\n');
    var r := DataUriPrefix + body;
    assert r[|DataUriPrefix|..] == body;
    assert |rows| >= 1 ==> Count(body, '\n') == |rows| - 1 + CountAll(Lines(rows, show), '\n') by {
      if |rows| >= 1 {
        JoinCount(Lines(rows, show), '\n');
      }
    }
    r
  }

  /** A cell that renders without a comma or a newline. */
  predicate Plain(c: Cell, show: real -> string)
  {
    Free(Render(c, show), ',') && Free(Render(c, show), '\n')
  }

  /** When no cell renders with a comma or a newline, the text after the
      prefix splits back into one line per row and each line into the row's
      rendered cells. */
  lemma CsvRoundTrip(rows: seq<Row>, show: real -> string)
    requires |rows| >= 1
    requires forall i :: 0 <= i < |rows| ==> |rows[i]| >= 1
    requires forall i, k :: 0 <= i < |rows| && 0 <= k < |rows[i]| ==> Plain(rows[i][k], show)
    ensures CsvContent(rows, show)[..|DataUriPrefix|] == DataUriPrefix
    ensures var lines := Split(CsvContent(rows, show)[|DataUriPrefix|..], '\n');
      && |lines| == |rows|
      && forall i :: 0 <= i < |rows| ==> Split(lines[i], ',') == Fields(rows[i], show)
  {
    var lines := Lines(rows, show);
    forall i | 0 <= i < |rows|
      ensures Free(lines[i], '\n') && Split(lines[i], ',') == Fields(rows[i], show)
    {
      var fs := Fields(rows[i], show);
      assert forall k :: 0 <= k < |fs| ==> Plain(rows[i][k], show);
      JoinFree(fs, ',', '\n');
      SplitJoin(fs, ',');
    }
    SplitJoin(lines, '\n');
    assert CsvContent(rows, show)[|DataUriPrefix|..] == Join(lines, '\n');
  }

  /** Because nothing is quoted, a line splits into one more field per comma
      inside its cells: a note such as "Rent, May" turns a five-cell row into
      six fields. */
  lemma UnquotedFieldCount(row: Row, show: real -> string)
    requires |row| >= 1
    ensures |Split(Line(row, show), ',')| == |row| + CountAll(Fields(row, show), ',')
  {
    SplitCount(Line(row, show), ',');
    JoinCount(Fields(row, show), ',');
  }

  /** The rendered cells of a transaction row. */
  lemma TransactionFields(t: Transaction, show: real -> string)
    ensures Fields(TransactionRow(t), show) == [KindName(t.kind), t.category, show(t.amount), t.note, t.date]
  {
  }

  /** The separators inside five fields are those of each field added up. */
  lemma CountAllFive(a: string, b: string, c: string, d: string, e: string, sep: char)
    ensures CountAll([a, b, c, d, e], sep) == Count(a, sep) + Count(b, sep) + Count(c, sep) + Count(d, sep) + Count(e, sep)
  {
    var fs := [a, b, c, d, e];
    assert CountAll(fs[..1], sep) == Count(a, sep) by { assert fs[..1][..0] == []; }
    assert CountAll(fs[..2], sep) == Count(a, sep) + Count(b, sep) by { assert fs[..2][..1] == fs[..1]; }
    assert CountAll(fs[..3], sep) == Count(a, sep) + Count(b, sep) + Count(c, sep) by { assert fs[..3][..2] == fs[..2]; }
    assert CountAll(fs[..4], sep) == Count(a, sep) + Count(b, sep) + Count(c, sep) + Count(d, sep) by { assert fs[..4][..3] == fs[..3]; }
    assert fs[..5] == fs;
  }

  /** The transaction row of an expense whose note holds one comma splits
      into six fields. */
  lemma CommaInNoteAddsField(t: Transaction, show: real -> string)
    requires Count(t.note, ',') == 1
    requires Free(t.category, ',') && Free(t.date, ',') && Free(show(t.amount), ',')
    ensures |Split(Line(TransactionRow(t), show), ',')| == 6
  {
    var row := TransactionRow(t);
    assert |row| == 5;
    assert CountAll(Fields(row, show), ',') == 1 by {
      TransactionFields(t, show);
      CountAllFive(KindName(t.kind), t.category, show(t.amount), t.note, t.date, ',');
      CountFree(KindName(t.kind), ',');
      CountFree(t.category, ',');
      CountFree(show(t.amount), ',');
      CountFree(t.date, ',');
    }
    UnquotedFieldCount(row, show);
  }
}

=== FILE: entry.dfy ===
/** The four mutation commands of the current month: adding a category goal,
    recording an income, recording an expense against a category, and
    transferring budget from one category to another. Each validates its
    inputs as the form handler does and either returns the updated ledger
    or the reason it refused, leaving the ledger untouched. */
module Entry {
  import opened Text
  import opened Budget

  /** `addCategory`: the trimmed name must be non-empty and the goal a
      positive number. Re-adding an existing name adds the new goal to the
      old one (the handler tests the old goal for truthiness; a zero or
      missing goal is replaced, which comes to the same sum). */
  function AddCategory(d: Ledger, rawName: string, goal: Number): (r: Result<Ledger>)
    ensures r.Err? <==> Trim(rawName) == [] || goal.NaN? || goal.value <= 0.0
    ensures r.Err? ==> r.reason == InvalidCategory
    ensures r.Ok? ==>
      var name := Trim(rawName);
      && r.value.goals.Keys == d.goals.Keys + {name}
      && r.value.goals[name] == (if name in d.goals then d.goals[name] else 0.0) + goal.value
      && (forall c :: c in d.goals && c != name ==> r.value.goals[c] == d.goals[c])
      && r.value.transactions == d.transactions && r.value.incomes == d.incomes
      && r.value.lastMonth == d.lastMonth && r.value.history == d.history
  {
    var name := Trim(rawName);
    if name == [] || goal.NaN? || goal.value == 0.0 || goal.value <= 0.0 then Err(InvalidCategory)
    else
      var next := if name in d.goals && d.goals[name] != 0.0 then d.goals[name] + goal.value else goal.value;
      Ok(d.(goals := d.goals[name := next]))
  }

  /** `addIncome`: refuses a zero or non-numeric amount or a blank note, and
      nothing else — a negative amount is accepted. An empty date field
      falls back to today's date. */
  function AddIncome(d: Ledger, amount: Number, rawNote: string, dateField: string, today: string): (r: Result<Ledger>)
    ensures r.Err? <==> amount.NaN? || amount.value == 0.0 || Trim(rawNote) == []
    ensures r.Err? ==> r.reason == InvalidIncome
    ensures r.Ok? ==>
      && |r.value.incomes| == |d.incomes| + 1
      && r.value.incomes[..|d.incomes|] == d.incomes
      && r.value.incomes[|d.incomes|].amount == amount.value
      && r.value.incomes[|d.incomes|].note == Trim(rawNote)
      && r.value.incomes[|d.incomes|].date == (if dateField == [] then today else dateField)
      && r.value.transactions == d.transactions && r.value.goals == d.goals
      && r.value.lastMonth == d.lastMonth && r.value.history == d.history
  {
    var note := Trim(rawNote);
    var date := if dateField == [] then today else dateField;
    if amount.NaN? || amount.value == 0.0 || note == [] then Err(InvalidIncome)
    else Ok(d.(incomes := d.incomes + [IncomeEntry(amount.value, note, date)]))
  }

  /** `promptAddTransaction`: the description prompt must not be cancelled
      or left empty (it is not trimmed) and the amount must be positive.
      There is no budget check and the category is taken as given. */
  function AddExpense(d: Ledger, category: string, note: Option<string>, amount: Number, today: string): (r: Result<Ledger>)
    ensures r.Err? <==> note.None? || note.value == [] || amount.NaN? || amount.value <= 0.0
    ensures r.Err? ==> r.reason == InvalidExpense
    ensures r.Ok? ==>
      && |r.value.transactions| == |d.transactions| + 1
      && r.value.transactions[..|d.transactions|] == d.transactions
      && r.value.transactions[|d.transactions|]
           == Transaction(amount.value, note.value, Expense, category, today)
      && r.value.incomes == d.incomes && r.value.goals == d.goals
      && r.value.lastMonth == d.lastMonth && r.value.history == d.history
  {
    if note.None? || note.value == [] || amount.NaN? || amount.value == 0.0 || amount.value <= 0.0 then
      Err(InvalidExpense)
    else
      Ok(d.(transactions := d.transactions + [Transaction(amount.value, note.value, Expense, category, today)]))
  }

  /** The two legs a transfer records: an expense on the source and an
      income-typed entry on the target, same amount, same date. */
  function TransferLegs(from: string, to: string, amount: real, today: string): (r: seq<Transaction>)
    ensures |r| == 2 && r[0].amount == r[1].amount == amount && r[0].date == r[1].date == today
    ensures r[0].kind == Expense && r[0].category == from && r[1].kind == Income && r[1].category == to
    ensures forall c :: SpentBy(r[0], c) == (if c == from then amount else 0.0)
    ensures forall c :: SpentBy(r[1], c) == 0.0
  {
    [ Transaction(amount, "Transfer to " + to, Expense, from, today),
      Transaction(amount, "Transfer from " + from, Income, to, today) ]
  }

  /** The transfer button: both categories come from the dropdowns of
      existing categories. Refuses an empty or identical pair and a missing
      or non-positive amount, then refuses an amount above what the source
      has available. */
  function Transfer(d: Ledger, from: string, to: string, amount: Number, today: string): (r: Result<Ledger>)
    requires from in d.goals && to in d.goals
    ensures r.Err? <==>
      || from == [] || to == [] || from == to || amount.NaN? || amount.value <= 0.0
      || amount.value > Available(d, from)
    ensures r.Err? ==> r.reason == InvalidTransfer || r.reason == InsufficientFunds
    ensures r.Err? && r.reason == InsufficientFunds <==>
      from != [] && to != [] && from != to && amount.Finite? && 0.0 < amount.value
      && amount.value > Available(d, from)
    ensures r.Ok? ==>
      && r.value.transactions == d.transactions + TransferLegs(from, to, amount.value, today)
      && r.value.incomes == d.incomes && r.value.goals == d.goals
      && r.value.lastMonth == d.lastMonth && r.value.history == d.history
  {
    if from == [] || to == [] || from == to || amount.NaN? || amount.value <= 0.0 then Err(InvalidTransfer)
    else
      var spentFrom := SumAmounts(CategoryExpenses(d.transactions, from));
      if amount.value > d.goals[from] - spentFrom then Err(InsufficientFunds)
      else Ok(d.(transactions := d.transactions + TransferLegs(from, to, amount.value, today)))
  }

  // ---------------------------------------------------------------------
  // Properties relating the commands to the derived totals.
  // ---------------------------------------------------------------------

  /** Adding the same category twice is adding the sum of the two goals once. */
  lemma AddCategoryAccumulates(d: Ledger, name: string, a: real, b: real)
    requires Trim(name) != [] && a > 0.0 && b > 0.0
    ensures AddCategory(d, name, Finite(a)).Ok?
    ensures AddCategory(AddCategory(d, name, Finite(a)).value, name, Finite(b))
            == AddCategory(d, name, Finite(a + b))
  {
    var n := Trim(name);
    var once := AddCategory(d, name, Finite(a)).value;
    var twice := AddCategory(once, name, Finite(b)).value;
    var sum := AddCategory(d, name, Finite(a + b)).value;
    assert twice.goals == sum.goals;
  }

  /** An income changes the balance by its (possibly negative) amount. */
  lemma AddIncomeShiftsBalance(d: Ledger, amount: Number, rawNote: string, dateField: string, today: string)
    requires AddIncome(d, amount, rawNote, dateField, today).Ok?
    ensures Balance(AddIncome(d, amount, rawNote, dateField, today).value) == Balance(d) + amount.value
  {
    var r := AddIncome(d, amount, rawNote, dateField, today).value;
    TotalIncomeAppendOne(d.incomes, r.incomes[|d.incomes|]);
    assert r.incomes == d.incomes + [r.incomes[|d.incomes|]];
  }

  /** An expense raises its category's spending and lowers the balance by
      its amount; every other category's spending is unchanged. */
  lemma AddExpenseEffect(d: Ledger, category: string, note: Option<string>, amount: Number, today: string, r: Ledger)
    requires AddExpense(d, category, note, amount, today) == Ok(r)
    ensures Spent(r.transactions, category) == Spent(d.transactions, category) + amount.value
    ensures forall c :: c != category ==> Spent(r.transactions, c) == Spent(d.transactions, c)
    ensures Balance(r) == Balance(d) - amount.value
  {
    var t := Transaction(amount.value, note.value, Expense, category, today);
    assert r.transactions == d.transactions + [t];
    SpentAppendOne(d.transactions, t, category);
    forall c | c != category
      ensures Spent(r.transactions, c) == Spent(d.transactions, c)
    {
      SpentAppendOne(d.transactions, t, c);
    }
    TotalExpensesAppendOne(d.transactions, t);
  }

  lemma TransferLegsSpent(ts: seq<Transaction>, from: string, to: string, amount: real, today: string, c: string)
    ensures Spent(ts + TransferLegs(from, to, amount, today), c)
            == Spent(ts, c) + (if c == from then amount else 0.0)
    ensures TotalExpenses(ts + TransferLegs(from, to, amount, today)) == TotalExpenses(ts) + amount
  {
    var legs := TransferLegs(from, to, amount, today);
    assert ts + legs == (ts + [legs[0]]) + [legs[1]];
    SpentAppendOne(ts, legs[0], c);
    SpentAppendOne(ts + [legs[0]], legs[1], c);
    TotalExpensesAppendOne(ts, legs[0]);
    TotalExpensesAppendOne(ts + [legs[0]], legs[1]);
  }

  /** After a transfer the source has exactly `amount` less available and
      is not overdrawn; every other category, the target included, keeps its
      available amount (the income-typed leg is not counted as spending); the
      balance drops by the amount. */
  lemma TransferEffect(d: Ledger, from: string, to: string, amount: Number, today: string, r: Ledger)
    requires from in d.goals && to in d.goals
    requires Transfer(d, from, to, amount, today) == Ok(r)
    ensures from in r.goals && Available(r, from) == Available(d, from) - amount.value
    ensures Available(r, from) >= 0.0
    ensures forall c :: c in d.goals && c != from ==> c in r.goals && Available(r, c) == Available(d, c)
    ensures Balance(r) == Balance(d) - amount.value
  {
    assert r.transactions == d.transactions + TransferLegs(from, to, amount.value, today);
    TransferLegsSpent(d.transactions, from, to, amount.value, today, from);
    forall c | c in d.goals && c != from
      ensures c in r.goals && Available(r, c) == Available(d, c)
    {
      TransferLegsSpent(d.transactions, from, to, amount.value, today, c);
    }
  }

  /** Transferring an amount from A to B and straight back does not restore
      A's available amount: both legs count only against their source, so A
      and B each end with `x` less available than before. */
  lemma TransferBackLowersBoth(d: Ledger, a: string, b: string, x: real, today: string)
    requires a in d.goals && b in d.goals
    requires Transfer(d, a, b, Finite(x), today).Ok?
    requires Transfer(Transfer(d, a, b, Finite(x), today).value, b, a, Finite(x), today).Ok?
    ensures var r := Transfer(Transfer(d, a, b, Finite(x), today).value, b, a, Finite(x), today).value;
      && Available(r, a) == Available(d, a) - x
      && Available(r, b) == Available(d, b) - x
  {
    var d1 := Transfer(d, a, b, Finite(x), today).value;
    var r := Transfer(d1, b, a, Finite(x), today).value;
    TransferEffect(d, a, b, Finite(x), today, d1);
    TransferEffect(d1, b, a, Finite(x), today, r);
  }

  /** Every command keeps the ledger's invariant. */
  lemma AddCategoryKeepsValid(d: Ledger, name: string, goal: Number)
    requires Valid(d) && AddCategory(d, name, goal).Ok?
    ensures Valid(AddCategory(d, name, goal).value)
  {
  }

  lemma AddIncomeKeepsValid(d: Ledger, amount: Number, note: string, dateField: string, today: string)
    requires Valid(d) && AddIncome(d, amount, note, dateField, today).Ok?
    ensures Valid(AddIncome(d, amount, note, dateField, today).value)
  {
  }

  lemma AddExpenseKeepsValid(d: Ledger, category: string, note: Option<string>, amount: Number, today: string)
    requires Valid(d) && AddExpense(d, category, note, amount, today).Ok?
    ensures Valid(AddExpense(d, category, note, amount, today).value)
  {
    var r := AddExpense(d, category, note, amount, today).value;
    assert forall i :: 0 <= i < |d.transactions| ==> r.transactions[i] == d.transactions[i];
  }

  lemma TransferKeepsValid(d: Ledger, from: string, to: string, amount: Number, today: string)
    requires Valid(d) && from in d.goals && to in d.goals && Transfer(d, from, to, amount, today).Ok?
    ensures Valid(Transfer(d, from, to, amount, today).value)
  {
    var r := Transfer(d, from, to, amount, today).value;
    var legs := TransferLegs(from, to, amount.value, today);
    assert r.transactions == d.transactions + legs && amount.value > 0.0;
    assert Positive(r.transactions) by {
      forall i | 0 <= i < |r.transactions|
        ensures r.transactions[i].amount > 0.0
      {
        if i < |d.transactions| {
          assert r.transactions[i] == d.transactions[i];
        } else {
          assert r.transactions[i] == legs[i - |d.transactions|];
        }
      }
    }
  }
}

=== FILE: month_close.dfy ===
/** Closing a month and the startup rollover. The close applies each
    category's chosen resolution of its leftover, one after the other, to the
    live goals (there is no snapshot: a later category's leftover is computed
    from goals the earlier resolutions may already have raised), then
    archives the month's transactions under the tracked month key and starts
    an empty month. The startup rollover is the archive step alone. */
module MonthClose {
  import opened Budget

  /** The options of the close-month dialog: `carry`, `redistribute`, and
      `none` (shown as "Ignore"). */
  datatype Choice = Carry | Redistribute | Ignore

  /** One select of the close-month dialog: a category and its choice. */
  datatype Resolution = Resolution(category: string, choice: Choice)

  /** How much one resolution adds to the goals in total. */
  function Moved(goals: map<string, real>, ts: seq<Transaction>, cat: string, choice: Choice): real
    requires cat in goals
  {
    var leftover := Leftover(goals, ts, cat);
    if leftover > 0.0 && (choice == Carry || (choice == Redistribute && |goals| > 1)) then leftover else 0.0
  }

  /** One step of the confirm handler. A category with no positive leftover
      is skipped. `carry` adds the leftover to the category's own goal;
      `redistribute` splits it evenly over every other category and leaves the
      source goal as it was (with no other category there is nothing to add
      to, and the division is never performed); `none` does nothing. */
  function Resolve(goals: map<string, real>, ts: seq<Transaction>, cat: string, choice: Choice): (r: map<string, real>)
    requires cat in goals
    ensures r.Keys == goals.Keys
    ensures Leftover(goals, ts, cat) <= 0.0 || choice == Ignore ==> r == goals
    ensures Leftover(goals, ts, cat) > 0.0 && choice == Carry ==>
      && r[cat] == goals[cat] + Leftover(goals, ts, cat)
      && (forall c :: c in goals && c != cat ==> r[c] == goals[c])
    ensures Leftover(goals, ts, cat) > 0.0 && choice == Redistribute ==>
      && r[cat] == goals[cat]
      && (|goals| > 1 ==> forall c :: c in goals && c != cat ==>
            r[c] == goals[c] + Leftover(goals, ts, cat) / ((|goals| - 1) as real))
    ensures choice == Redistribute && |goals| == 1 ==> r == goals
    ensures forall c :: c in goals ==> r[c] >= goals[c]
  {
    var leftover := Leftover(goals, ts, cat);
    if leftover <= 0.0 then goals
    else
      match choice
      case Carry => goals[cat := goals[cat] + leftover]
      case Redistribute =>
        var others := goals.Keys - {cat};
        assert |others| == |goals| - 1;
        if |others| == 0 then goals
        else
          Spread(goals, cat, leftover / (|others| as real))
      case Ignore => goals
  }

  /** Every goal but `cat`'s raised by `share`. */
  function Spread(goals: map<string, real>, cat: string, share: real): (r: map<string, real>)
    requires cat in goals
    ensures r.Keys == goals.Keys && r[cat] == goals[cat]
    ensures forall c :: c in goals && c != cat ==> r[c] == goals[c] + share
  {
    map c | c in goals :: if c == cat then goals[c] else goals[c] + share
  }

  predicate Known(goals: map<string, real>, choices: seq<Resolution>)
  {
    forall i :: 0 <= i < |choices| ==> choices[i].category in goals
  }

  /** The confirm handler's loop: a left fold of `Resolve` over the dialog's
      selects in order, each step reading the goals the previous one left. */
  function CloseGoals(goals: map<string, real>, ts: seq<Transaction>, choices: seq<Resolution>): (r: map<string, real>)
    requires Known(goals, choices)
    ensures r.Keys == goals.Keys
  {
    if |choices| == 0 then goals
    else
      var last := choices[|choices| - 1];
      Resolve(CloseGoals(goals, ts, choices[..|choices| - 1]), ts, last.category, last.choice)
  }

  /** Moving the tracked month on: the current transactions are stored in
      the history under the month being left (replacing whatever was stored
      under that key), the transaction list is emptied and the new month key
      is tracked. Goals and incomes are not touched. */
  function Archive(d: Ledger, newMonth: string): (r: Ledger)
    ensures r.history.Keys == d.history.Keys + {d.lastMonth}
    ensures r.history[d.lastMonth] == d.transactions
    ensures forall m :: m in d.history && m != d.lastMonth ==> r.history[m] == d.history[m]
    ensures r.transactions == [] && r.lastMonth == newMonth
    ensures r.goals == d.goals && r.incomes == d.incomes
  {
    d.(history := d.history[d.lastMonth := d.transactions], transactions := [], lastMonth := newMonth)
  }

  /** The confirm-close handler: resolve every select, then archive and
      track `newMonth` (the calendar month at the moment of closing). */
  function CloseMonth(d: Ledger, choices: seq<Resolution>, newMonth: string): (r: Ledger)
    requires Known(d.goals, choices)
    ensures r.goals == CloseGoals(d.goals, d.transactions, choices)
    ensures r.goals.Keys == d.goals.Keys
    ensures forall c :: c in d.goals ==> r.goals[c] >= d.goals[c]
    ensures r.history.Keys == d.history.Keys + {d.lastMonth}
    ensures r.history[d.lastMonth] == d.transactions
    ensures forall m :: m in d.history && m != d.lastMonth ==> r.history[m] == d.history[m]
    ensures r.transactions == [] && r.lastMonth == newMonth && r.incomes == d.incomes
  {
    CloseGoalsNeverLower(d.goals, d.transactions, choices);
    Archive(d.(goals := CloseGoals(d.goals, d.transactions, choices)), newMonth)
  }

  /** The check at application start: when the stored month key differs
      from the calendar month, archive and move on; otherwise leave the
      ledger alone. */
  function Startup(d: Ledger, currentMonth: string): (r: Ledger)
    ensures r.lastMonth == currentMonth
    ensures r.goals == d.goals && r.incomes == d.incomes
    ensures d.lastMonth == currentMonth ==> r == d
    ensures d.lastMonth != currentMonth ==>
      && r.transactions == []
      && r.history.Keys == d.history.Keys + {d.lastMonth}
      && r.history[d.lastMonth] == d.transactions
      && (forall m :: m in d.history && m != d.lastMonth ==> r.history[m] == d.history[m])
  {
    if d.lastMonth != currentMonth then Archive(d, currentMonth) else d
  }

  /** Loading: the stored record if there is one, else a fresh record
      tracking the calendar month; then the startup check. */
  function Load(stored: Option<Ledger>, currentMonth: string): (r: Ledger)
    ensures r.lastMonth == currentMonth
    ensures stored.None? ==> r == Initial(currentMonth)
    ensures stored.Some? ==> r == Startup(stored.value, currentMonth)
    ensures stored.Some? ==> r.goals == stored.value.goals && r.incomes == stored.value.incomes
  {
    var d := match stored
      case Some(saved) => saved
      case None => Initial(currentMonth);
    Startup(d, currentMonth)
  }

  // ---------------------------------------------------------------------
  // Properties of the close.
  // ---------------------------------------------------------------------

  /** The fold is sequential from the front: the first select is resolved
      against the goals as they were, and the rest against its outcome. */
  lemma {:induction false} CloseGoalsFirst(goals: map<string, real>, ts: seq<Transaction>, x: Resolution, rest: seq<Resolution>)
    requires x.category in goals && Known(goals, rest)
    ensures Known(goals, [x] + rest)
    ensures CloseGoals(goals, ts, [x] + rest)
            == CloseGoals(Resolve(goals, ts, x.category, x.choice), ts, rest)
  {
    var all := [x] + rest;
    var g1 := Resolve(goals, ts, x.category, x.choice);
    if |rest| == 0 {
      assert all == [] + [x];
      CloseGoalsSnoc(goals, ts, [], x);
    } else {
      var init := rest[..|rest| - 1];
      var last := rest[|rest| - 1];
      assert rest == init + [last];
      assert all == ([x] + init) + [last];
      assert Known(goals, init);
      CloseGoalsFirst(goals, ts, x, init);
      CloseGoalsSnoc(goals, ts, [x] + init, last);
      CloseGoalsSnoc(g1, ts, init, last);
    }
  }

  /** The fold's last step: one more select is resolved against what the
      earlier ones left. */
  lemma CloseGoalsSnoc(goals: map<string, real>, ts: seq<Transaction>, init: seq<Resolution>, y: Resolution)
    requires Known(goals, init) && y.category in goals
    ensures Known(goals, init + [y])
    ensures CloseGoals(goals, ts, init + [y]) == Resolve(CloseGoals(goals, ts, init), ts, y.category, y.choice)
  {
    assert (init + [y])[..|init|] == init;
  }

  /** No goal ever goes down during a close. */
  lemma {:induction false} CloseGoalsNeverLower(goals: map<string, real>, ts: seq<Transaction>, choices: seq<Resolution>)
    requires Known(goals, choices)
    ensures forall c :: c in goals ==> CloseGoals(goals, ts, choices)[c] >= goals[c]
  {
    if |choices| > 0 {
      CloseGoalsNeverLower(goals, ts, choices[..|choices| - 1]);
    }
  }

  /** Choosing `none` everywhere leaves every goal as it was. */
  lemma {:induction false} CloseAllIgnore(goals: map<string, real>, ts: seq<Transaction>, choices: seq<Resolution>)
    requires Known(goals, choices)
    requires forall i :: 0 <= i < |choices| ==> choices[i].choice == Ignore
    ensures CloseGoals(goals, ts, choices) == goals
  {
    if |choices| > 0 {
      CloseAllIgnore(goals, ts, choices[..|choices| - 1]);
    }
  }

  /** Reopening the app in the same month changes nothing: loading the
      record a load produced gives that record back. */
  lemma LoadIdempotent(stored: Option<Ledger>, currentMonth: string)
    ensures Load(Some(Load(stored, currentMonth)), currentMonth) == Load(stored, currentMonth)
  {
    StartupIdempotent(Load(stored, currentMonth), currentMonth);
  }

  /** Loading a stored record that keeps the invariant gives one that keeps
      it; a missing record gives the empty ledger, which keeps it too. */
  lemma LoadKeepsValid(stored: Option<Ledger>, currentMonth: string)
    requires stored.Some? ==> Valid(stored.value)
    ensures Valid(Load(stored, currentMonth))
  {
    if stored.Some? {
      StartupKeepsValid(stored.value, currentMonth);
    }
  }

  /** A close keeps the ledger's invariant. */
  lemma CloseMonthKeepsValid(d: Ledger, choices: seq<Resolution>, newMonth: string)
    requires Valid(d) && Known(d.goals, choices)
    ensures Valid(CloseMonth(d, choices, newMonth))
  {
  }

  /** The startup rollover keeps the ledger's invariant. */
  lemma StartupKeepsValid(d: Ledger, currentMonth: string)
    requires Valid(d)
    ensures Valid(Startup(d, currentMonth))
  {
  }

  /** Running the startup check twice in the same month does nothing more. */
  lemma StartupIdempotent(d: Ledger, currentMonth: string)
    ensures Startup(Startup(d, currentMonth), currentMonth) == Startup(d, currentMonth)
  {
  }

  /** After a close (or a rollover) no expense is outstanding, so the balance
      is the sum of every income ever recorded: incomes are not archived. */
  lemma CloseResetsBalanceToIncome(d: Ledger, choices: seq<Resolution>, newMonth: string)
    requires Known(d.goals, choices)
    ensures Balance(CloseMonth(d, choices, newMonth)) == TotalIncome(d.incomes)
  {
  }

  // ---------------------------------------------------------------------
  // Conservation: a resolution adds exactly its leftover to the goals.
  // ---------------------------------------------------------------------

  ghost function Pick(keys: set<string>): (k: string)
    requires keys != {}
    ensures k in keys
  {
    var k :| k in keys; k
  }

  /** The sum of the goals of the categories in `keys`. */
  ghost function SumOver(goals: map<string, real>, keys: set<string>): real
    requires keys <= goals.Keys
    decreases keys
  {
    if keys == {} then 0.0
    else
      var k := Pick(keys);
      goals[k] + SumOver(goals, keys - {k})
  }

  ghost function GoalTotal(goals: map<string, real>): real
  {
    SumOver(goals, goals.Keys)
  }

  /** Any category can be taken out of the sum first. */
  lemma {:induction false} SumOverRemove(goals: map<string, real>, keys: set<string>, k: string)
    requires keys <= goals.Keys && k in keys
    ensures SumOver(goals, keys) == goals[k] + SumOver(goals, keys - {k})
    decreases keys
  {
    var j := Pick(keys);
    if j != k {
      SumOverRemove(goals, keys - {j}, k);
      SumOverRemove(goals, keys - {k}, j);
      assert keys - {j} - {k} == keys - {k} - {j};
    }
  }

  /** `n` copies of `x` added up. */
  function Times(x: real, n: nat): real
  {
    if n == 0 then 0.0 else Times(x, n - 1) + x
  }

  lemma {:induction false} TimesIsProduct(x: real, n: nat)
    ensures Times(x, n) == x * (n as real)
  {
    if n > 0 {
      TimesIsProduct(x, n - 1);
      assert x * (n as real) == x * ((n - 1) as real) + x;
    }
  }

  /** Raising every goal in `keys` by `delta` raises their sum by
      `delta` per category. */
  lemma {:induction false} SumOverShift(g1: map<string, real>, g2: map<string, real>, keys: set<string>, delta: real)
    requires keys <= g1.Keys && keys <= g2.Keys
    requires forall c :: c in keys ==> g2[c] == g1[c] + delta
    ensures SumOver(g2, keys) == SumOver(g1, keys) + Times(delta, |keys|)
    decreases keys
  {
    if keys != {} {
      var k := Pick(keys);
      var rest := keys - {k};
      assert |rest| == |keys| - 1;
      SumOverShift(g1, g2, rest, delta);
    }
  }

  lemma CarryConserves(goals: map<string, real>, ts: seq<Transaction>, cat: string)
    requires cat in goals && Leftover(goals, ts, cat) > 0.0
    ensures GoalTotal(Resolve(goals, ts, cat, Carry)) == GoalTotal(goals) + Leftover(goals, ts, cat)
  {
    var r := Resolve(goals, ts, cat, Carry);
    var others := goals.Keys - {cat};
    SumOverRemove(goals, goals.Keys, cat);
    SumOverRemove(r, goals.Keys, cat);
    SumOverShift(goals, r, others, 0.0);
    TimesIsProduct(0.0, |others|);
  }

  lemma DivTimes(x: real, n: real)
    requires n > 0.0
    ensures (x / n) * n == x
  {
  }

  /** Raising every goal but `cat`'s by `share` raises the total by one
      share per other category. */
  lemma {:induction false} ShiftOthersTotal(g: map<string, real>, r: map<string, real>, cat: string, share: real)
    requires cat in g && r.Keys == g.Keys && r[cat] == g[cat]
    requires forall c :: c in g && c != cat ==> r[c] == g[c] + share
    ensures GoalTotal(r) == GoalTotal(g) + Times(share, |g| - 1)
  {
    var others := g.Keys - {cat};
    assert |others| == |g.Keys| - 1 == |g| - 1;
    SumOverRemove(g, g.Keys, cat);
    SumOverRemove(r, g.Keys, cat);
    SumOverShift(g, r, others, share);
  }

  /** With a positive leftover and another category, redistributing is
      spreading the leftover's equal share over the others. */
  lemma RedistributeIsSpread(goals: map<string, real>, ts: seq<Transaction>, cat: string)
    requires cat in goals && Leftover(goals, ts, cat) > 0.0 && |goals| > 1
    ensures Resolve(goals, ts, cat, Redistribute)
            == Spread(goals, cat, Leftover(goals, ts, cat) / ((|goals| - 1) as real))
  {
    assert |goals.Keys - {cat}| == |goals| - 1;
  }

  /** Spreading an amount in equal shares over the other categories raises
      the total by exactly that amount. */
  lemma SpreadConserves(goals: map<string, real>, cat: string, amount: real)
    requires cat in goals && |goals| > 1
    ensures GoalTotal(Spread(goals, cat, amount / ((|goals| - 1) as real))) == GoalTotal(goals) + amount
  {
    var n := (|goals| - 1) as real;
    var share := amount / n;
    ShiftOthersTotal(goals, Spread(goals, cat, share), cat, share);
    TimesIsProduct(share, |goals| - 1);
    DivTimes(amount, n);
  }

  lemma RedistributeConserves(goals: map<string, real>, ts: seq<Transaction>, cat: string)
    requires cat in goals && Leftover(goals, ts, cat) > 0.0 && |goals| > 1
    ensures GoalTotal(Resolve(goals, ts, cat, Redistribute)) == GoalTotal(goals) + Leftover(goals, ts, cat)
  {
    RedistributeIsSpread(goals, ts, cat);
    SpreadConserves(goals, cat, Leftover(goals, ts, cat));
  }

  /** Conservation of one resolution: the goals in total grow by exactly
      the leftover when it is carried or redistributed to at least one other
      category, and not at all otherwise. */
  lemma ResolveConserves(goals: map<string, real>, ts: seq<Transaction>, cat: string, choice: Choice)
    requires cat in goals
    ensures GoalTotal(Resolve(goals, ts, cat, choice)) == GoalTotal(goals) + Moved(goals, ts, cat, choice)
  {
    if Leftover(goals, ts, cat) > 0.0 {
      if choice == Carry {
        CarryConserves(goals, ts, cat);
      } else if choice == Redistribute && |goals| > 1 {
        RedistributeConserves(goals, ts, cat);
      }
    }
  }

  // ---------------------------------------------------------------------
  // Worked instances.
  // ---------------------------------------------------------------------

  /** Income 1000; Groceries has a goal of 300 and expenses of 50 and 40;
      carrying forward makes next month's Groceries goal 300 + 210 = 510,
      and the two expenses are archived under the closed month. */
  lemma GroceriesCarry()
    ensures
      var t1 := Transaction(50.0, "Market", Expense, "Groceries", "2024-05-03");
      var t2 := Transaction(40.0, "Bakery", Expense, "Groceries", "2024-05-17");
      var d := Ledger([t1, t2], [IncomeEntry(1000.0, "Salary", "2024-05-01")],
                      map["Groceries" := 300.0], "2024-05", map[]);
      var r := CloseMonth(d, [Resolution("Groceries", Carry)], "2024-06");
      && r.goals == map["Groceries" := 510.0]
      && r.transactions == []
      && r.history == map["2024-05" := [t1, t2]]
      && r.lastMonth == "2024-06"
  {
    var t1 := Transaction(50.0, "Market", Expense, "Groceries", "2024-05-03");
    var t2 := Transaction(40.0, "Bakery", Expense, "Groceries", "2024-05-17");
    assert [t1, t2][..1] == [t1];
    assert [t1][..0] == [];
    assert CategoryExpenses([t1], "Groceries") == [t1];
    assert CategoryExpenses([t1, t2], "Groceries") == [t1, t2];
    assert SumAmounts([t1]) == 50.0;
    assert Spent([t1, t2], "Groceries") == 90.0;
  }

  /** With a single category, redistributing its leftover changes nothing. */
  lemma LoneRedistribute()
    ensures
      var d := Ledger([], [], map["Rent" := 50.0], "2024-05", map[]);
      CloseMonth(d, [Resolution("Rent", Redistribute)], "2024-06").goals == map["Rent" := 50.0]
  {
  }

  /** No snapshot: with two categories and nothing spent, redistributing A
      first gives all of A's goal to B, and carrying B then doubles that
      raised goal. B ends at 2 * (A + B); resolving both from the goals as
      they stood would give 2 * B + A. With 100 each that is 400, not 300. */
  lemma CloseDoesNotSnapshot(g: map<string, real>, a: string, b: string)
    requires g.Keys == {a, b} && a != b && g[a] > 0.0 && g[b] > 0.0
    ensures Known(g, [Resolution(a, Redistribute), Resolution(b, Carry)])
    ensures var r := CloseGoals(g, [], [Resolution(a, Redistribute), Resolution(b, Carry)]);
      r[a] == g[a] && r[b] == 2.0 * (g[a] + g[b])
  {
    var g1 := Resolve(g, [], a, Redistribute);
    RedistributeOfTwo(g, a, b);
    CloseGoalsTwo(g, [], Resolution(a, Redistribute), Resolution(b, Carry));
    NothingSpent(b);
    assert Leftover(g1, [], b) == g1[b];
  }

  /** With no transactions nothing is spent. */
  lemma NothingSpent(cat: string)
    ensures Spent([], cat) == 0.0
  {
  }

  /** Two selects are resolved one after the other. */
  lemma CloseGoalsTwo(g: map<string, real>, ts: seq<Transaction>, x: Resolution, y: Resolution)
    requires x.category in g && y.category in g
    ensures Known(g, [x, y])
    ensures CloseGoals(g, ts, [x, y]) == Resolve(Resolve(g, ts, x.category, x.choice), ts, y.category, y.choice)
  {
    var g1 := Resolve(g, ts, x.category, x.choice);
    assert [x] + [y] == [x, y];
    CloseGoalsFirst(g, ts, x, [y]);
    CloseGoalsOne(g1, ts, y);
  }

  /** A single select is resolved against the goals as they are. */
  lemma CloseGoalsOne(g: map<string, real>, ts: seq<Transaction>, y: Resolution)
    requires y.category in g
    ensures Known(g, [y])
    ensures CloseGoals(g, ts, [y]) == Resolve(g, ts, y.category, y.choice)
  {
    assert [y][..0] == [];
  }

  /** With exactly two categories and nothing spent, redistributing one
      hands its whole goal to the other. */
  lemma RedistributeOfTwo(g: map<string, real>, a: string, b: string)
    requires g.Keys == {a, b} && a != b && g[a] > 0.0
    ensures var r := Resolve(g, [], a, Redistribute);
      r.Keys == g.Keys && r[a] == g[a] && r[b] == g[b] + g[a]
  {
    NothingSpent(a);
    assert |g| == |g.Keys| == 2;
    assert Leftover(g, [], a) == g[a];
  }

  // ---------------------------------------------------------------------
  // The archive key is overwritten.
  // ---------------------------------------------------------------------

  /** As written, a close stores the month under the tracked key and then
      tracks the calendar month, which after the startup check is that same
      key. The next startup in a later month archives the (empty) current
      list under that key again, replacing what the close stored: the closed
      month's transactions are gone from the history. */
  lemma CloseThenRolloverDropsArchive(d: Ledger, choices: seq<Resolution>, next: string)
    requires Known(d.goals, choices) && next != d.lastMonth
    ensures CloseMonth(d, choices, d.lastMonth).history[d.lastMonth] == d.transactions
    ensures Startup(CloseMonth(d, choices, d.lastMonth), next).history[d.lastMonth] == []
  {
  }

  /** The same on a concrete ledger: one expense of 25 in May that uses up
      the Food goal (so the close dialog lists no category), closed in May,
      and the application opened again in June. */
  lemma CloseThenRolloverDropsArchiveExample()
    ensures
      var t := Transaction(25.0, "Lunch", Expense, "Food", "2024-05-10");
      var d := Ledger([t], [], map["Food" := 25.0], "2024-05", map[]);
      var closed := CloseMonth(d, [], "2024-05");
      && closed.history == map["2024-05" := [t]]
      && Startup(closed, "2024-06").history == map["2024-05" := []]
  {
    var t := Transaction(25.0, "Lunch", Expense, "Food", "2024-05-10");
    var d := Ledger([t], [], map["Food" := 25.0], "2024-05", map[]);
    assert "2024-05" != "2024-06" by { assert "2024-05"[6] != "2024-06"[6]; }
    CloseThenRolloverDropsArchive(d, [], "2024-06");
  }

  /** What is stored under a month key, or nothing. */
  function Archived(history: map<string, seq<Transaction>>, month: string): seq<Transaction>
  {
    if month in history then history[month] else []
  }

  /** Archiving that keeps earlier archives: the current transactions are
      appended to whatever is already stored under the tracked key. */
  function ArchiveKeeping(d: Ledger, newMonth: string): (r: Ledger)
    ensures r.history.Keys == d.history.Keys + {d.lastMonth}
    ensures forall m :: m in d.history ==> d.history[m] <= r.history[m]
    ensures r.history[d.lastMonth][|Archived(d.history, d.lastMonth)|..] == d.transactions
    ensures r.transactions == [] && r.lastMonth == newMonth
    ensures r.goals == d.goals && r.incomes == d.incomes
  {
    var kept := Archived(d.history, d.lastMonth);
    d.(history := d.history[d.lastMonth := kept + d.transactions], transactions := [], lastMonth := newMonth)
  }

  /** The close with the keeping archive: the same goal resolutions, then
      the current transactions appended to the tracked month's archive. */
  function CloseMonthKeeping(d: Ledger, choices: seq<Resolution>, newMonth: string): (r: Ledger)
    requires Known(d.goals, choices)
    ensures r.goals == CloseGoals(d.goals, d.transactions, choices)
    ensures r.goals.Keys == d.goals.Keys
    ensures forall c :: c in d.goals ==> r.goals[c] >= d.goals[c]
    ensures forall m :: m in d.history ==> m in r.history && d.history[m] <= r.history[m]
    ensures d.lastMonth in r.history
      && r.history[d.lastMonth] == Archived(d.history, d.lastMonth) + d.transactions
    ensures r.transactions == [] && r.lastMonth == newMonth && r.incomes == d.incomes
  {
    CloseGoalsNeverLower(d.goals, d.transactions, choices);
    ArchiveKeeping(d.(goals := CloseGoals(d.goals, d.transactions, choices)), newMonth)
  }

  /** The startup check with the keeping archive. */
  function StartupKeeping(d: Ledger, currentMonth: string): (r: Ledger)
    ensures r.lastMonth == currentMonth
    ensures r.goals == d.goals && r.incomes == d.incomes
    ensures d.lastMonth == currentMonth ==> r == d
    ensures forall m :: m in d.history ==> m in r.history && d.history[m] <= r.history[m]
    ensures d.lastMonth != currentMonth ==>
      && r.transactions == [] && d.lastMonth in r.history
      && r.history[d.lastMonth] == Archived(d.history, d.lastMonth) + d.transactions
  {
    if d.lastMonth != currentMonth then ArchiveKeeping(d, currentMonth) else d
  }

  /** With the keeping archive, a close followed by any number of startups
      never loses an archived transaction: every stored history is a prefix
      of the later one, and the closed month's transactions stay stored under
      its key. */
  lemma CloseKeepingThenRolloverKeepsArchive(d: Ledger, choices: seq<Resolution>, next: string)
    requires Known(d.goals, choices)
    ensures var r := StartupKeeping(CloseMonthKeeping(d, choices, d.lastMonth), next);
      && (forall m :: m in d.history ==> m in r.history && d.history[m] <= r.history[m])
      && d.lastMonth in r.history
      && r.history[d.lastMonth][..|Archived(d.history, d.lastMonth)| + |d.transactions|]
         == Archived(d.history, d.lastMonth) + d.transactions
  {
    var kept := Archived(d.history, d.lastMonth);
    var closed := CloseMonthKeeping(d, choices, d.lastMonth);
    assert closed.history[d.lastMonth] == kept + d.transactions;
    var r := StartupKeeping(closed, next);
    assert closed.history[d.lastMonth] <= r.history[d.lastMonth];
  }
}

=== FILE: text.dfy ===
/** String helpers the ledger relies on: the ECMAScript `trim` applied to
    form inputs, and joining/splitting on a one-character separator as the
    CSV export does with `Array.prototype.join`. */
module Text {

  /** The ECMAScript WhiteSpace and LineTerminator code points, which is the
      set `String.prototype.trim` removes from both ends. */
  predicate IsSpace(c: char)
  {
    var n := c as int;
    || n == 0x09 || n == 0x0A || n == 0x0B || n == 0x0C || n == 0x0D
    || n == 0x20 || n == 0xA0 || n == 0x1680
    || (0x2000 <= n <= 0x200A)
    || n == 0x2028 || n == 0x2029 || n == 0x202F || n == 0x205F
    || n == 0x3000 || n == 0xFEFF
  }

  predicate AllSpace(s: string)
  {
    forall i :: 0 <= i < |s| ==> IsSpace(s[i])
  }

  /** How many whitespace characters lead `s`: the length of its longest
      all-whitespace prefix. */
  function Lead(s: string): (n: nat)
    ensures n <= |s| && AllSpace(s[..n])
    ensures n == |s| || !IsSpace(s[n])
  {
    if |s| > 0 && IsSpace(s[0]) then
      var k := 1 + Lead(s[1..]);
      assert AllSpace(s[..k]) by {
        forall i | 0 <= i < k ensures IsSpace(s[..k][i]) {
          if i > 0 { assert s[..k][i] == s[1..][..k - 1][i - 1]; }
        }
      }
      assert k < |s| ==> s[k] == s[1..][k - 1];
      k
    else 0
  }

  /** How many characters are left once the longest all-whitespace suffix
      of `s` is dropped. */
  function Keep(s: string): (n: nat)
    ensures n <= |s| && AllSpace(s[n..])
    ensures n == 0 || !IsSpace(s[n - 1])
  {
    if |s| > 0 && IsSpace(s[|s| - 1]) then
      var init := s[..|s| - 1];
      var k := Keep(init);
      assert AllSpace(s[k..]) by {
        forall i | 0 <= i < |s| - k ensures IsSpace(s[k..][i]) {
          if i < |init| - k { assert s[k..][i] == init[k..][i]; }
        }
      }
      assert k > 0 ==> s[k - 1] == init[k - 1];
      k
    else |s|
  }

  /** Drops leading whitespace: the result is the suffix of `s` after the
      longest all-whitespace prefix. */
  function TrimStart(s: string): (r: string)
    ensures |r| <= |s| && r == s[|s| - |r|..]
    ensures AllSpace(s[..|s| - |r|])
    ensures r == [] || !IsSpace(r[0])
  {
    s[Lead(s)..]
  }

  /** Drops trailing whitespace: the result is the prefix of `s` before the
      longest all-whitespace suffix. */
  function TrimEnd(s: string): (r: string)
    ensures |r| <= |s| && r == s[..|r|]
    ensures AllSpace(s[|r|..])
    ensures r == [] || !IsSpace(r[|r| - 1])
  {
    s[..Keep(s)]
  }

  /** `String.prototype.trim`: the result is the infix of `s` left once the
      whitespace at both ends is removed, and it neither starts nor ends with
      whitespace. */
  function Trim(s: string): (r: string)
    ensures Lead(s) + |r| <= |s|
    ensures r == s[Lead(s)..Lead(s) + |r|]
    ensures AllSpace(s[..Lead(s)]) && AllSpace(s[Lead(s) + |r|..])
    ensures r == [] || (!IsSpace(r[0]) && !IsSpace(r[|r| - 1]))
  {
    var n := Lead(s);
    var t := s[n..];
    var r := t[..Keep(t)];
    assert r == s[n..n + |r|];
    assert AllSpace(s[n + |r|..]) by { assert t[|r|..] == s[n + |r|..]; }
    assert r != [] ==> r[0] == s[n] && r[|r| - 1] == t[|r| - 1];
    r
  }

  /** A form field counts as empty after trimming exactly when it held
      nothing but whitespace. */
  lemma TrimEmptyIffAllSpace(s: string)
    ensures Trim(s) == [] <==> AllSpace(s)
  {
    var t := TrimStart(s);
    var r := TrimEnd(t);
    assert r == Trim(s);
    if r == [] {
      assert t[0..] == t;
      assert t == [];
      assert s[..|s|] == s;
    } else {
      assert r[0] == s[Lead(s)];
    }
  }

  /** Trimming twice is the same as trimming once. */
  lemma TrimIdempotent(s: string)
    ensures Trim(Trim(s)) == Trim(s)
  {
    var r := Trim(s);
    TrimStartNoop(r);
    TrimEndNoop(TrimStart(r));
  }

  lemma TrimStartNoop(s: string)
    requires s == [] || !IsSpace(s[0])
    ensures TrimStart(s) == s
  {
  }

  lemma TrimEndNoop(s: string)
    requires s == [] || !IsSpace(s[|s| - 1])
    ensures TrimEnd(s) == s
  {
  }

  /** Array join on one separator: an empty list joins to the empty
      string, one field joins to itself, and consecutive fields are
      separated by one `sep`. */
  function Join(fields: seq<string>, sep: char): string
  {
    if |fields| == 0 then []
    else if |fields| == 1 then fields[0]
    else Join(fields[..|fields| - 1], sep) + [sep] + fields[|fields| - 1]
  }

  /** String split on one separator: the pieces of `s` between
      separators, always at least one (the empty string splits into one
      empty piece). */
  function Split(s: string, sep: char): (r: seq<string>)
    ensures |r| >= 1
  {
    if |s| == 0 then [[]]
    else
      var p := Split(s[..|s| - 1], sep);
      var c := s[|s| - 1];
      if c == sep then p + [[]]
      else p[..|p| - 1] + [p[|p| - 1] + [c]]
  }

  predicate Free(s: string, sep: char)
  {
    sep !in s
  }

  /** A string without the separator splits into itself. */
  lemma {:induction false} SplitFree(s: string, sep: char)
    requires Free(s, sep)
    ensures Split(s, sep) == [s]
  {
    if |s| > 0 {
      SplitFree(s[..|s| - 1], sep);
      assert s[..|s| - 1] + [s[|s| - 1]] == s;
    }
  }

  /** Appending a separator and a separator-free piece adds exactly that
      piece to the split. */
  lemma {:induction false} SplitAppend(x: string, sep: char, f: string)
    requires Free(f, sep)
    ensures Split(x + [sep] + f, sep) == Split(x, sep) + [f]
  {
    var y := x + [sep] + f;
    if |f| == 0 {
      assert y == x + [sep];
      assert y[..|y| - 1] == x;
    } else {
      var g := f[..|f| - 1];
      assert y[..|y| - 1] == x + [sep] + g;
      assert y[|y| - 1] == f[|f| - 1];
      SplitAppend(x, sep, g);
      assert g + [f[|f| - 1]] == f;
    }
  }

  /** Splitting undoes joining whenever no field contains the separator. */
  lemma {:induction false} SplitJoin(fields: seq<string>, sep: char)
    requires |fields| >= 1
    requires forall i :: 0 <= i < |fields| ==> Free(fields[i], sep)
    ensures Split(Join(fields, sep), sep) == fields
  {
    if |fields| == 1 {
      SplitFree(fields[0], sep);
    } else {
      var init := fields[..|fields| - 1];
      var last := fields[|fields| - 1];
      assert forall i :: 0 <= i < |init| ==> init[i] == fields[i];
      SplitJoin(init, sep);
      assert Join(fields, sep) == Join(init, sep) + [sep] + last;
      SplitAppend(Join(init, sep), sep, last);
      assert init + [last] == fields;
    }
  }

  /** How many times `c` occurs in `s`. */
  function Count(s: string, c: char): nat
  {
    if |s| == 0 then 0 else Count(s[..|s| - 1], c) + (if s[|s| - 1] == c then 1 else 0)
  }

  lemma {:induction false} CountAppend(a: string, b: string, c: char)
    ensures Count(a + b, c) == Count(a, c) + Count(b, c)
  {
    if |b| > 0 {
      var init := b[..|b| - 1];
      assert (a + b)[..|a + b| - 1] == a + init;
      CountAppend(a, init, c);
    } else {
      assert a + b == a;
    }
  }

  lemma {:induction false} CountFree(s: string, c: char)
    ensures Count(s, c) == 0 <==> Free(s, c)
  {
    if |s| > 0 {
      CountFree(s[..|s| - 1], c);
      assert s == s[..|s| - 1] + [s[|s| - 1]];
    }
  }

  /** A split yields one piece more than there are separators. */
  lemma {:induction false} SplitCount(s: string, sep: char)
    ensures |Split(s, sep)| == 1 + Count(s, sep)
  {
    if |s| > 0 {
      SplitCount(s[..|s| - 1], sep);
    }
  }

  /** The separators inside the fields, added up. */
  function CountAll(fields: seq<string>, c: char): nat
  {
    if |fields| == 0 then 0 else CountAll(fields[..|fields| - 1], c) + Count(fields[|fields| - 1], c)
  }

  /** A join holds one separator between each pair of fields, plus any the
      fields themselves contain. */
  lemma {:induction false} JoinCount(fields: seq<string>, sep: char)
    requires |fields| >= 1
    ensures Count(Join(fields, sep), sep) == |fields| - 1 + CountAll(fields, sep)
  {
    if |fields| == 1 {
      assert fields[..0] == [];
    } else {
      var init := fields[..|fields| - 1];
      JoinCount(init, sep);
      CountAppend(Join(init, sep) + [sep], fields[|fields| - 1], sep);
      CountAppend(Join(init, sep), [sep], sep);
      assert [sep][..0] == [];
    }
  }

  /** Joining fields that avoid a character other than the separator gives a
      string that avoids it too. */
  lemma {:induction false} JoinFree(fields: seq<string>, sep: char, c: char)
    requires sep != c
    requires forall i :: 0 <= i < |fields| ==> Free(fields[i], c)
    ensures Free(Join(fields, sep), c)
  {
    if |fields| > 1 {
      JoinFree(fields[..|fields| - 1], sep, c);
    }
  }
}
